=== FILE: README.md ===
# CI report scripts: a Dafny model

The repository's CI post-processing consists of three small scripts:

- `extract_matrix_rows.py` selects rows of the build matrix.
- `generate_compatibility_md.py` renders the Markdown compatibility table from per-row result files.
- `job_summary.py` renders the job summary for one result file.

This project models the logic of each script that sits between "JSON already decoded" and "text about to be printed". Each script is modelled as pure functions over strings, maps and sequences. The properties those scripts promise are proved about the model.

| file | module | models |
|---|---|---|
| `wrappers.dfy` | `Wrappers` | `Option`, `Result`, and `CollectAll`, which collects per-item results and stops at the first error |
| `strings.dfy` | `Strings` | the Python string operations used: `isspace`, `strip`, `split`, `join`, `a or b`, and `<` on strings |
| `sequences.dfy` | `Sequences` | `[x for x in xs if p(x)]` (`Filter`), and the order-preserving subsequence relation |
| `matrix_rows.dfy` | `MatrixRows` | `scripts/ci/extract_matrix_rows.py` |
| `records.dfy` | `Records` | the result record read by the two report scripts |
| `compatibility_table.dfy` | `CompatibilityTable` | `scripts/ci/generate_compatibility_md.py` |
| `job_summary.dfy` | `JobSummary` | `scripts/ci/job_summary.py` |

Modelling choices:

- **Matrix rows** are `map<string, Scalar>`. A `Scalar` is either a JSON string or some other scalar, stored together with the text Python's `str()` gives for it. This keeps two checks of the script apart:
  - `matches` compares the `str()` rendering of a value.
  - The id check `r.get("id") in allowed` compares the raw value, so only a string id can ever be allowed.
- **Result records** have three parts: top-level string fields, a `requested` map and a `detected` map. Both scripts read the nested objects through `or {}`, so a missing, null or empty object is modelled as the empty map.
- **Decoding outcomes are inputs.** JSON decoding success or failure is a variant of the input, and an exception message is an opaque string.
- **Table rows and summary lines are values.** A row of the table is a `TableRow` value with twelve cells. A line of the job summary is a `Line` value. Neither is the Markdown text that gets printed.
- **Sorting** `rows.sort(key=sort_key)` is an insertion sort on sequences. It is proved sorted, a permutation of its input, and stable.

Three behaviours of the code a reader might not expect:

- A `--filter` argument may contain more than one `=`. It is split at the first one, so the value may contain `=`.
- The compatibility table has no notes column. A result file that fails to decode therefore shows up only as a failed row named after the file; its "Parse error" note appears nowhere in the table.
- The SDK triplet cell is not restricted to Android rows. It shows `detected.android_sdk_triplet` for every platform.

## Model

| member | source | states |
|---|---|---|
| Strings.IsSpaceMatchesTable | scripts/ci/extract_matrix_rows.py:23 | The white space that `strip()` removes is exactly Python's `str.isspace` set: the 29 characters listed one by one in `WhiteSpaceTable`, against which the range-based `IsSpace` is checked. |
| Strings.Strip | scripts/ci/extract_matrix_rows.py:23 | `strip()` never lengthens a string, and its result is empty or starts and ends with a character that is not white space. |
| Strings.StripRemovesOnlyEnds | scripts/ci/extract_matrix_rows.py:23 | `strip()` removes white space from the two ends only. The result is a contiguous piece of the input with only white space cut away on either side, and it neither starts nor ends with white space. |
| Strings.StripIdempotent | scripts/ci/extract_matrix_rows.py:23 | Stripping an already stripped string changes nothing. |
| Strings.SplitFirst | scripts/ci/extract_matrix_rows.py:20-22 | `split("=", 1)` fails exactly when there is no `=`. Otherwise key + "=" + value rebuilds the input, and the key contains no `=`. |
| Strings.SplitFirstOfJoin | scripts/ci/extract_matrix_rows.py:22 | The split happens at the first `=`. For any key without `=`, splitting key + "=" + value gives back exactly that key and value, even when the value contains `=`. |
| Strings.Split | scripts/ci/extract_matrix_rows.py:45 | `split(",")` always yields at least one piece, and no piece contains `,`. |
| Strings.Join | scripts/ci/generate_compatibility_md.py:55-56 | `sep.join(parts)` starts with the first part and ends with the last, and with two or more parts the separator follows the first part directly. |
| Strings.JoinSplit | scripts/ci/extract_matrix_rows.py:45 | Joining the pieces of `split(",")` with "," gives back the original `--ids` text. |
| Strings.SplitJoin | scripts/ci/extract_matrix_rows.py:45 | Splitting a comma-join of comma-free pieces gives back those pieces. |
| Strings.FirstNonEmpty | scripts/ci/generate_compatibility_md.py:41 | The result of a Python `a or b or ''` chain is "" exactly when every candidate is empty. Otherwise it is the first non-empty candidate. |
| Strings.OrElseIsFirstNonEmpty | scripts/ci/generate_compatibility_md.py:41-46 | Python's `a or b` on strings picks the first non-empty of the two, or "". |
| Strings.LexLessTransitive | scripts/ci/generate_compatibility_md.py:29 | Python's code-point ordering of strings is transitive. |
| Strings.LexLessTotal | scripts/ci/generate_compatibility_md.py:29 | Any two distinct strings are ordered one way or the other. |
| Wrappers.CollectAll | scripts/ci/extract_matrix_rows.py:18-24 | A loop that raises on the first bad item fails exactly when some item is bad. On success it returns one value per item, in order. |
| Wrappers.CollectAllReportsFirstError | scripts/ci/extract_matrix_rows.py:19-21 | The error reported is the first bad item's error, and every earlier item was good. |
| Sequences.Filter | scripts/ci/extract_matrix_rows.py:46 | A list comprehension with a condition is never longer than its input, and every element it keeps satisfies the condition. |
| Sequences.FilterIsSubsequence | scripts/ci/extract_matrix_rows.py:46 | What a comprehension keeps is an order-preserving subsequence of its input. |
| Sequences.FilterKeepsSatisfying | scripts/ci/extract_matrix_rows.py:49 | Every input element that satisfies the condition is kept. |
| Sequences.FilterCounts | scripts/ci/extract_matrix_rows.py:46 | A comprehension keeps each element that satisfies the condition exactly as many times as it occurs in the input, and keeps no other element. |
| Sequences.FilterFuse | scripts/ci/extract_matrix_rows.py:44-49 | Two comprehensions in a row equal one comprehension whose condition is the conjunction of both. |
| MatrixRows.ParseFilter | scripts/ci/extract_matrix_rows.py:19-23 | A filter argument is rejected exactly when it contains no `=`, and the rejection carries the argument itself. |
| MatrixRows.ParseFilterSplitsAtFirstEquals | scripts/ci/extract_matrix_rows.py:22-23 | A parsed filter is the stripped key and the stripped value around the argument's first `=`. |
| MatrixRows.ParseFilters | scripts/ci/extract_matrix_rows.py:17-24 | `parse_filters` fails exactly when some argument cannot be parsed. On success it returns one criterion per argument, in the same order, each being that argument's parse. |
| MatrixRows.FirstBadFilterReported | scripts/ci/extract_matrix_rows.py:19-21 | The failure names the first argument without `=`, and every argument before it contains `=`. |
| MatrixRows.Shown | scripts/ci/extract_matrix_rows.py:28 | `str(row.get(k, ""))` is the `str()` rendering of the row's value for a present key, and the rendering of the empty string for a missing key. |
| MatrixRows.MissingKeyReadsAsEmpty | scripts/ci/extract_matrix_rows.py:28 | A row without the key compares exactly as if it held "" under that key. |
| MatrixRows.Matches | scripts/ci/extract_matrix_rows.py:26-30 | `matches` holds exactly when, for every criterion, the row's value for the key equals the criterion's value. The row's value is rendered by `str()`, is not trimmed, and is "" when the key is missing. With no criteria, every row matches. |
| MatrixRows.AllowedIds | scripts/ci/extract_matrix_rows.py:45 | The allowed set is exactly the stripped non-blank comma-separated tokens of `--ids`. Every token that is non-blank once stripped is allowed, and every allowed id is the stripped form of some token. Every allowed id is therefore non-empty, free of commas and already stripped. |
| MatrixRows.IdAllowed | scripts/ci/extract_matrix_rows.py:46 | `r.get("id") in allowed` holds exactly when the row has an id that is a JSON string equal to an allowed id. A missing id or a non-string id is never allowed. |
| MatrixRows.AllowedIdsOfJoin | scripts/ci/extract_matrix_rows.py:44-45 | An `--ids` value written as a comma-separated list of clean ids allows exactly those ids. |
| MatrixRows.RestrictToIds | scripts/ci/extract_matrix_rows.py:44-46 | The id stage keeps exactly the rows the id predicate accepts. It lets every row through when `--ids` is blank. |
| MatrixRows.RestrictToCriteria | scripts/ci/extract_matrix_rows.py:48-49 | The filter stage keeps exactly the matching rows, and keeps every row when there are no filters. |
| MatrixRows.SelectRows | scripts/ci/extract_matrix_rows.py:44-49 | The id stage followed by the filter stage equals a single filter by the conjunctive condition: the id is allowed (or `--ids` is blank) and the row matches every criterion. |
| MatrixRows.SelectionKeepsCounts | scripts/ci/extract_matrix_rows.py:44-49 | Each matrix row that meets the conjunctive condition is selected exactly as many times as it occurs in the matrix, and no other row is selected. |
| MatrixRows.SelectionIsSubsequence | scripts/ci/extract_matrix_rows.py:44-49 | The selected rows are an order-preserving subsequence of the matrix rows. |
| MatrixRows.SelectionKeepsExactlyAdmitted | scripts/ci/extract_matrix_rows.py:44-49 | Every selected row meets the conjunctive condition, and every matrix row that meets it is selected. |
| MatrixRows.UnrestrictedSelectionIsIdentity | scripts/ci/extract_matrix_rows.py:40-49 | With blank `--ids` and no filters, the output is the input rows, unchanged and in order. |
| MatrixRows.StagesCommute | scripts/ci/extract_matrix_rows.py:44-49 | Running the filter stage before the id stage selects the same rows. |
| MatrixRows.Extract | scripts/ci/extract_matrix_rows.py:39-49 | An unreadable matrix is a fatal error that comes before filter parsing. For a readable matrix, the run fails exactly when some filter has no `=`, and the error names such an argument. On success, the output is the matrix rows filtered by the conjunctive condition. |
| MatrixRows.ParsedCriteriaAreTrimmed | scripts/ci/extract_matrix_rows.py:23 | Parsed keys and values have no surrounding white space. |
| MatrixRows.PaddedValueNeverMatches | scripts/ci/extract_matrix_rows.py:23-28 | Row values are compared untrimmed, so a row whose value has surrounding white space never matches a parsed filter on that key. |
| CompatibilityTable.ParseFailureRecord | scripts/ci/generate_compatibility_md.py:13 | The stand-in record for an undecodable file has id = stem, platform "unknown", outcome "fail", empty requested and detected maps, and notes of "Parse error: " followed by the error. |
| CompatibilityTable.LoadResults | scripts/ci/generate_compatibility_md.py:7-14 | There is exactly one record per file, in file order. A decoded file yields its record. A file that fails to decode yields a record with id = stem, platform "unknown", outcome "fail", empty requested and detected maps, and notes of "Parse error: " followed by the error. |
| CompatibilityTable.KeyOf | scripts/ci/generate_compatibility_md.py:16-18 | The sort key is the record's platform, requested flutter_version, requested jdk and id, each "" when absent. The ordering on keys is proved a strict total order by the `KeyLess` lemmas below, and `SortIsStable` keeps the load order of records with equal keys. |
| CompatibilityTable.KeyLessTransitive | scripts/ci/generate_compatibility_md.py:16-18 | Tuple comparison of the four-part sort key is transitive. |
| CompatibilityTable.KeyLessTotal | scripts/ci/generate_compatibility_md.py:16-18 | Any two distinct sort keys are ordered one way or the other. |
| CompatibilityTable.KeyLessAsymmetric | scripts/ci/generate_compatibility_md.py:16-18 | No two sort keys are each smaller than the other. |
| CompatibilityTable.InsertIsPermutation | scripts/ci/generate_compatibility_md.py:29 | One insertion step adds the inserted record and loses none of the others. |
| CompatibilityTable.InsertKeepsSorted | scripts/ci/generate_compatibility_md.py:29 | Inserting into a key-ordered sequence keeps it key-ordered. |
| CompatibilityTable.SortByKey | scripts/ci/generate_compatibility_md.py:28-29 | The sorted rows are a permutation of the loaded rows, and they are non-decreasing in lexicographic (platform, requested flutter_version, requested jdk, id) order. |
| CompatibilityTable.InsertKeepsTies | scripts/ci/generate_compatibility_md.py:29 | An inserted record goes before the records that share its key and after none of them. |
| CompatibilityTable.SortIsStable | scripts/ci/generate_compatibility_md.py:29 | For every key, the records that have it appear in the same relative order after sorting as in load order. |
| CompatibilityTable.Emoji | scripts/ci/generate_compatibility_md.py:20-21 | The pass glyph is shown exactly for the outcome "pass". |
| CompatibilityTable.JoinPresentPair | scripts/ci/generate_compatibility_md.py:55-56 | The " / " join is "" when both parts are empty, the single present part when only one is present, and `a / b` when both are present. |
| CompatibilityTable.JoinPresentEmptyIffAllEmpty | scripts/ci/generate_compatibility_md.py:55-56 | `' / '.join([x for x in parts if x])` is "" exactly when every part is empty. |
| CompatibilityTable.RowCells | scripts/ci/generate_compatibility_md.py:36-59 | The cells are filled by these rules: (1) Flutter prefers requested, then detected. (2) Runner OS, AGP, Gradle and Kotlin prefer detected, then requested. (3) The SDK triplet is detected only. (4) Build JDK is empty unless the platform is "android". (5) Xcode/Swift and CocoaPods/Ruby are empty unless the platform is "ios". (6) The outcome defaults to "fail" when absent, and the glyph is "pass" only for an outcome of exactly "pass". |
| CompatibilityTable.CompatibilityRows | scripts/ci/generate_compatibility_md.py:28-36 | The table has exactly one row per result file, including files that failed to decode. |
| CompatibilityTable.TableIsSortedRecords | scripts/ci/generate_compatibility_md.py:28-59 | The table rows are the cells of the loaded records taken in an order that is a stable sort by key. That order is a permutation of load order, non-decreasing by key, and keeps records of equal key in load order. Row i shows the i-th record of that order. |
| CompatibilityTable.EveryFileHasARow | scripts/ci/generate_compatibility_md.py:28-36 | Each file's record is rendered as some row of the table. |
| CompatibilityTable.UndecodableFileShowsFailure | scripts/ci/generate_compatibility_md.py:12-13 | A file that failed to decode appears as a row named after the file, with platform "unknown", the fail glyph and the outcome "fail". |
| JobSummary.FieldLines | scripts/ci/job_summary.py:55-88 | There are never more version lines than checked fields. Every version line shows the non-empty detected value of one of the checked fields under that field's label. |
| JobSummary.FieldLinesAreFilteredCandidates | scripts/ci/job_summary.py:55-88 | The version lines are exactly the per-field lines `- {label}: {value}` in field order, keeping those whose value is non-empty (each `if fv:` test). |
| JobSummary.FieldLinesInSpecOrder | scripts/ci/job_summary.py:55-88 | The version lines appear in the order of the field checks. Each line occurs exactly as many times as field checks produce it, and no line with an empty value occurs. |
| JobSummary.FieldLinesLabelled | scripts/ci/job_summary.py:55-88 | Every version line carries the label of one of the checked fields. |
| JobSummary.FieldLinesNamesDistinct | scripts/ci/job_summary.py:55-88 | When the checked fields have distinct labels, no two version lines share a label. |
| JobSummary.VersionLinesOncePerField | scripts/ci/job_summary.py:55-88 | For either platform, no version label is printed twice. |
| JobSummary.FieldLinesShowEveryField | scripts/ci/job_summary.py:55-88 | Every checked field with a non-empty detected value gets a line showing that value. |
| JobSummary.Truncate | scripts/ci/job_summary.py:14-20 | `_truncate` follows three rules. A non-positive limit gives "". A string within the limit is returned unchanged. Otherwise the result is a suffix of the input, and its length is min(length, max(limit, 0)). |
| JobSummary.TruncateIdempotent | scripts/ci/job_summary.py:14-20 | Truncating again to the same limit changes nothing. |
| JobSummary.Summary | scripts/ci/job_summary.py:29-41 | A missing file yields exactly the two "missing result JSON" lines. Invalid JSON yields exactly the three "invalid JSON" lines, the last one carrying the error. |
| JobSummary.HeadLines | scripts/ci/job_summary.py:47-53 | The summary of a decoded record opens with a heading and an outcome line, followed by a notes line holding the notes exactly when the notes are non-empty. |
| JobSummary.SummaryLineOrder | scripts/ci/job_summary.py:47-95 | A decoded record's summary starts with the heading and then the outcome line. After those come only a notes line, version lines and a log block, in that order. Each kind other than version lines occurs at most once, and no error line appears. |
| JobSummary.PartsInOrder | scripts/ci/job_summary.py:50-95 | A heading and an outcome line, followed by at most one notes line, then any number of version lines, then at most one log block, are in summary order. |
| JobSummary.SummaryVersionLinesAreFieldLines | scripts/ci/job_summary.py:50-95 | Picking the version lines out of a decoded record's printed summary gives exactly the lines of the field checks, in the same order and with the same repetitions. |
| JobSummary.SummaryVersionLinesInFieldOrder | scripts/ci/job_summary.py:55-88 | The printed version lines follow the order of the field checks (Flutter, Dart, then the platform's own fields), and no label is printed twice. |
| JobSummary.VersionPartOfParts | scripts/ci/job_summary.py:50-95 | When only the middle part of heading lines, version lines and log lines holds version lines, picking the version lines out of the whole gives back that middle part unchanged. |
| JobSummary.FieldLinesOfSummary | scripts/ci/job_summary.py:55-88 | As sets of lines, the summary's version lines and the lines of the field checks coincide. Every printed version line comes from a field check, and every field-check line is printed. |
| JobSummary.HeadingAndOutcome | scripts/ci/job_summary.py:47-51 | The heading's title is the record's id if it is non-empty, else the file stem. The outcome line reads "unknown" when the outcome is absent or empty. |
| JobSummary.NotesShownIffPresent | scripts/ci/job_summary.py:45-53 | A notes line appears exactly when the record has non-empty notes, and it shows those notes. |
| JobSummary.VersionLinesFollowPlatform | scripts/ci/job_summary.py:55-88 | Each version line shows a non-empty detected value of a field checked for the platform. Each checked field with a non-empty value is shown. |
| JobSummary.OnlyOwnPlatformVersions | scripts/ci/job_summary.py:63-88 | An Android summary never shows Xcode/Swift/CocoaPods/Ruby lines, and an iOS summary never shows Java/AGP/Kotlin/Gradle lines. |
| JobSummary.LogLines | scripts/ci/job_summary.py:90-95 | The log part is at most one line, and that line is a log block. |
| JobSummary.LogLinesHoldLogTail | scripts/ci/job_summary.py:90-92 | There is a log block exactly when the stripped `log_tail` is non-empty. Its body is the final min(length, limit) characters of the stripped log, and it is empty for a non-positive limit. |
| JobSummary.LogBlockIffLogPresent | scripts/ci/job_summary.py:90-95 | A log block appears exactly when the stripped `log_tail` is non-empty. Its body is the stripped log truncated to the limit. |
| JobSummary.LogBlockIsLast | scripts/ci/job_summary.py:90-95 | When there is a log block, it is the last line of the summary. |

## Left out

- Argument parsing: `argparse`, defaults, choices and help text. The parsed values are parameters, and the platform is a two-valued datatype.
- File access: the existence check, `read_text` and the results-directory `glob`. The result files arrive as a sequence already in filename order, so the `sorted()` over paths is not modelled.
- JSON: `json.loads`, and the compact `json.dumps` of the selected rows. Decoding success or failure is an input variant, and the output is the sequence of rows.
- Documents of the wrong shape are not modelled. These are a matrix whose `rows` is not a list, a result document that is not an object, and non-string top-level or version fields in a result record. In the source they raise `TypeError` or `AttributeError`, or they print a `str()` rendering.
- A matrix document that is not a JSON object is not modelled. The source's `data.get("rows", [])` raises `AttributeError` on it (scripts/ci/extract_matrix_rows.py:40). The model's matrix is always an object, with or without `rows`.
- Elements of `rows` that are not objects are not modelled. With no `--ids` and no filters the source prints them unchanged (line 52). Otherwise `r.get` raises on them (line 46 or line 28). Every model row is an object.
- MatrixRows.IdAllowed: a list or object `id` makes `in allowed` raise `TypeError` in the source (line 46), because such values cannot be hashed. The model has no such values: `Scalar.Other` stands for every non-string scalar, and for it `IdAllowed` is false.
- Python's `str()` of a non-string matrix value is carried as given text (`Scalar.Other`) rather than computed.
- Exception messages are opaque strings.
- Printing: the Markdown heading and footer text, the column header, the backticks around the row id, the emoji code points, the `·` in headings, the `<details>` wrapper and newlines. Cells and lines are values instead.
- `args.platform.upper()` is given as the two constants "ANDROID" and "IOS". The argument parser only admits those two platforms.
- Exit codes: fatal errors are `Err` results, and every other path returns a value.

=== FILE: compatibility_table.dfy ===
/** The Markdown compatibility table (scripts/ci/generate_compatibility_md.py):
    one record per result file, a stable sort by a four-part key, and twelve
    cells per record. Directory listing, file reading, JSON decoding, the
    fixed header and footer text and the printed Markdown are not
    modelled: the files arrive as a sequence in filename order, each already
    decoded or carrying its decoding error, and each table row is a value of
    `TableRow`. */
module CompatibilityTable {
  import opened Strings
  import opened Sequences
  import opened Records

  /** A result file's content: the decoded record, or the decoder's error
      message. */
  datatype Content = Decoded(record: Record) | Undecodable(error: string)

  /** One `*.json` file of the results directory, by file-name stem. */
  datatype ResultFile = ResultFile(stem: string, content: Content)

  const ParseErrorPrefix: string := "Parse error: "

  /** The record that stands in for a file that could not be decoded. */
  function ParseFailureRecord(stem: string, error: string): (rec: Record)
    ensures ReportsParseFailure(rec, stem, error)
  {
    Record(
      map["id" := stem, "platform" := "unknown", "outcome" := "fail", "notes" := ParseErrorPrefix + error],
      map[],
      map[])
  }

  /** What `rec` says about a file that failed to decode: named after the
      file, platform "unknown", nothing requested or detected, outcome
      "fail", and a note that starts with "Parse error: " and carries the
      error. */
  predicate ReportsParseFailure(rec: Record, stem: string, error: string) {
    && Get(rec.fields, "id") == stem
    && Get(rec.fields, "platform") == "unknown"
    && Get(rec.fields, "outcome") == "fail"
    && rec.requested == map[]
    && rec.detected == map[]
    && (var notes := Get(rec.fields, "notes");
        |notes| >= |ParseErrorPrefix| && notes[..|ParseErrorPrefix|] == ParseErrorPrefix
        && notes[|ParseErrorPrefix|..] == error)
  }

  function RecordOf(f: ResultFile): Record {
    match f.content
    case Decoded(rec) => rec
    case Undecodable(error) => ParseFailureRecord(f.stem, error)
  }

  /** `load_results`: exactly one record per file, in file order; a file
      that failed to decode is replaced, never dropped. */
  function LoadResults(files: seq<ResultFile>): (rs: seq<Record>)
    ensures |rs| == |files|
    ensures forall i :: 0 <= i < |files| && files[i].content.Decoded? ==> rs[i] == files[i].content.record
    ensures forall i :: 0 <= i < |files| && files[i].content.Undecodable? ==>
      ReportsParseFailure(rs[i], files[i].stem, files[i].content.error)
  {
    seq(|files|, i requires 0 <= i < |files| => RecordOf(files[i]))
  }

  /** The tuple `sort_key` returns. */
  datatype SortKey = SortKey(platform: string, flutter: string, jdk: string, id: string)

  /** `sort_key`: platform, requested Flutter version, requested JDK, id,
      each "" when absent. */
  function KeyOf(r: Record): (k: SortKey)
    ensures k.platform == Get(r.fields, "platform") && k.id == Get(r.fields, "id")
    ensures k.flutter == Get(r.requested, "flutter_version") && k.jdk == Get(r.requested, "jdk")
  {
    SortKey(Get(r.fields, "platform"), Get(r.requested, "flutter_version"), Get(r.requested, "jdk"), Get(r.fields, "id"))
  }

  /** Python's `<` on the key tuples: the first differing component decides. */
  predicate KeyLess(a: SortKey, b: SortKey) {
    if a.platform != b.platform then LexLess(a.platform, b.platform)
    else if a.flutter != b.flutter then LexLess(a.flutter, b.flutter)
    else if a.jdk != b.jdk then LexLess(a.jdk, b.jdk)
    else LexLess(a.id, b.id)
  }

  lemma KeyLessIrreflexive(a: SortKey)
    ensures !KeyLess(a, a)
  {
    LexLessIrreflexive(a.id);
  }

  lemma KeyLessTransitive(a: SortKey, b: SortKey, c: SortKey)
    requires KeyLess(a, b) && KeyLess(b, c)
    ensures KeyLess(a, c)
  {
    if a.platform != b.platform || b.platform != c.platform {
      if a.platform != b.platform && b.platform != c.platform {
        LexLessTransitive(a.platform, b.platform, c.platform);
      }
      if a.platform == c.platform {
        LexLessTransitive(a.platform, b.platform, a.platform);
        LexLessIrreflexive(a.platform);
      }
    } else if a.flutter != b.flutter || b.flutter != c.flutter {
      if a.flutter != b.flutter && b.flutter != c.flutter {
        LexLessTransitive(a.flutter, b.flutter, c.flutter);
      }
      if a.flutter == c.flutter {
        LexLessTransitive(a.flutter, b.flutter, a.flutter);
        LexLessIrreflexive(a.flutter);
      }
    } else if a.jdk != b.jdk || b.jdk != c.jdk {
      if a.jdk != b.jdk && b.jdk != c.jdk {
        LexLessTransitive(a.jdk, b.jdk, c.jdk);
      }
      if a.jdk == c.jdk {
        LexLessTransitive(a.jdk, b.jdk, a.jdk);
        LexLessIrreflexive(a.jdk);
      }
    } else {
      LexLessTransitive(a.id, b.id, c.id);
    }
  }

  lemma KeyLessAsymmetric(a: SortKey, b: SortKey)
    requires KeyLess(a, b)
    ensures !KeyLess(b, a)
  {
    KeyLessIrreflexive(a);
    if KeyLess(b, a) {
      KeyLessTransitive(a, b, a);
    }
  }

  lemma KeyLessTotal(a: SortKey, b: SortKey)
    ensures a == b || KeyLess(a, b) || KeyLess(b, a)
  {
    LexLessTotal(a.platform, b.platform);
    LexLessTotal(a.flutter, b.flutter);
    LexLessTotal(a.jdk, b.jdk);
    LexLessTotal(a.id, b.id);
  }

  /** "Not smaller than" is transitive. */
  lemma KeyNotLessTransitive(a: SortKey, b: SortKey, c: SortKey)
    requires !KeyLess(b, a) && !KeyLess(c, b)
    ensures !KeyLess(c, a)
  {
    KeyLessTotal(a, b);
    if KeyLess(c, a) && KeyLess(a, b) {
      KeyLessTransitive(c, a, b);
    }
  }

  /** Non-decreasing by key: no later record has a smaller key. */
  predicate SortedByKey(s: seq<Record>) {
    forall i, j :: 0 <= i < j < |s| ==> !KeyLess(KeyOf(s[j]), KeyOf(s[i]))
  }

  /** Puts `x` in front of the first record whose key is not smaller. */
  function Insert(x: Record, t: seq<Record>): seq<Record> {
    if t == [] then [x]
    else if KeyLess(KeyOf(t[0]), KeyOf(x)) then [t[0]] + Insert(x, t[1..])
    else [x] + t
  }

  /** Inserting adds `x` and loses nothing. */
  lemma {:induction false} InsertIsPermutation(x: Record, t: seq<Record>)
    ensures multiset(Insert(x, t)) == multiset(t) + multiset{x}
  {
    if t != [] && KeyLess(KeyOf(t[0]), KeyOf(x)) {
      InsertIsPermutation(x, t[1..]);
      assert t == [t[0]] + t[1..];
    }
  }

  /** A key that is a lower bound of `x` and of every record of `t` stays
      a lower bound after the insertion. */
  lemma {:induction false} InsertKeepsLowerBound(x: Record, t: seq<Record>, a: SortKey)
    requires !KeyLess(KeyOf(x), a)
    requires forall i :: 0 <= i < |t| ==> !KeyLess(KeyOf(t[i]), a)
    ensures forall i :: 0 <= i < |Insert(x, t)| ==> !KeyLess(KeyOf(Insert(x, t)[i]), a)
  {
    if t != [] && KeyLess(KeyOf(t[0]), KeyOf(x)) {
      InsertKeepsLowerBound(x, t[1..], a);
      var r := Insert(x, t);
      assert r == [t[0]] + Insert(x, t[1..]);
      forall i | 1 <= i < |r|
        ensures !KeyLess(KeyOf(r[i]), a)
      {
        assert r[i] == Insert(x, t[1..])[i - 1];
      }
    }
  }

  /** A record smaller than `t[0]` goes in front, and the result stays
      sorted. */
  lemma InsertInFrontKeepsSorted(x: Record, t: seq<Record>)
    requires SortedByKey(t) && t != [] && !KeyLess(KeyOf(t[0]), KeyOf(x))
    ensures SortedByKey(Insert(x, t))
  {
    var r := Insert(x, t);
    assert r == [x] + t;
    forall i, j | 0 <= i < j < |r|
      ensures !KeyLess(KeyOf(r[j]), KeyOf(r[i]))
    {
      assert r[j] == t[j - 1];
      if i > 0 {
        assert r[i] == t[i - 1];
      } else if j > 1 {
        KeyNotLessTransitive(KeyOf(x), KeyOf(t[0]), KeyOf(t[j - 1]));
      }
    }
  }

  /** Putting `y` before a sorted sequence whose keys are all at least its
      own keeps it sorted. */
  lemma ConsKeepsSorted(y: Record, rest: seq<Record>)
    requires SortedByKey(rest)
    requires forall j :: 0 <= j < |rest| ==> !KeyLess(KeyOf(rest[j]), KeyOf(y))
    ensures SortedByKey([y] + rest)
  {
    var r := [y] + rest;
    forall i, j | 0 <= i < j < |r|
      ensures !KeyLess(KeyOf(r[j]), KeyOf(r[i]))
    {
      assert r[j] == rest[j - 1];
      if i > 0 {
        assert r[i] == rest[i - 1];
      }
    }
  }

  lemma {:induction false} InsertKeepsSorted(x: Record, t: seq<Record>)
    requires SortedByKey(t)
    ensures SortedByKey(Insert(x, t))
  {
    if t != [] && KeyLess(KeyOf(t[0]), KeyOf(x)) {
      var rest := Insert(x, t[1..]);
      assert SortedByKey(rest) by {
        InsertKeepsSorted(x, t[1..]);
      }
      assert forall j :: 0 <= j < |rest| ==> !KeyLess(KeyOf(rest[j]), KeyOf(t[0])) by {
        KeyLessAsymmetric(KeyOf(t[0]), KeyOf(x));
        assert forall i :: 0 <= i < |t[1..]| ==> t[1..][i] == t[i + 1];
        InsertKeepsLowerBound(x, t[1..], KeyOf(t[0]));
      }
      ConsKeepsSorted(t[0], rest);
    } else if t != [] {
      InsertInFrontKeepsSorted(x, t);
    }
  }

  /** `rows.sort(key=sort_key)`: an insertion sort that keeps records with
      equal keys in their original order. */
  function SortByKey(s: seq<Record>): (r: seq<Record>)
    ensures multiset(r) == multiset(s)
    ensures SortedByKey(r)
  {
    if s == [] then []
    else
      var t := SortByKey(s[1..]);
      InsertKeepsSorted(s[0], t);
      InsertIsPermutation(s[0], t);
      assert s == [s[0]] + s[1..];
      Insert(s[0], t)
  }

  /** Selects the records with key `k`. */
  function WithKey(k: SortKey): Record -> bool {
    r => KeyOf(r) == k
  }

  lemma {:induction false} InsertKeepsTies(x: Record, t: seq<Record>, k: SortKey)
    ensures Filter(WithKey(k), Insert(x, t)) == (if KeyOf(x) == k then [x] else []) + Filter(WithKey(k), t)
  {
    var p := WithKey(k);
    var xs := if KeyOf(x) == k then [x] else [];
    if t == [] {
      FilterCons(p, x, []);
    } else if KeyLess(KeyOf(t[0]), KeyOf(x)) {
      var ys := if KeyOf(t[0]) == k then [t[0]] else [];
      InsertKeepsTies(x, t[1..], k);
      KeyLessIrreflexive(KeyOf(x));
      assert Insert(x, t) == [t[0]] + Insert(x, t[1..]);
      FilterCons(p, t[0], Insert(x, t[1..]));
      assert Filter(p, Insert(x, t)) == ys + (xs + Filter(p, t[1..]));
      assert t == [t[0]] + t[1..];
      FilterCons(p, t[0], t[1..]);
      assert Filter(p, t) == ys + Filter(p, t[1..]);
      assert ys + xs == xs + ys;
    } else {
      assert Insert(x, t) == [x] + t;
      FilterCons(p, x, t);
    }
  }

  /** The sort is stable: for every key, the records having it appear in the
      same relative order as before sorting. */
  lemma {:induction false} SortIsStable(s: seq<Record>, k: SortKey)
    ensures Filter(WithKey(k), SortByKey(s)) == Filter(WithKey(k), s)
  {
    if s != [] {
      SortIsStable(s[1..], k);
      InsertKeepsTies(s[0], SortByKey(s[1..]), k);
      FilterCons(WithKey(k), s[0], s[1..]);
      assert s == [s[0]] + s[1..];
    }
  }

  /** The result glyph; its code points are not modelled. */
  datatype Glyph = PassMark | FailMark

  /** `emoji`: the pass glyph exactly for the outcome "pass". */
  function Emoji(outcome: string): (g: Glyph)
    ensures g == PassMark <==> outcome == "pass"
  {
    if outcome == "pass" then PassMark else FailMark
  }

  predicate Present(s: string) {
    s != ""
  }

  /** `sep.join([x for x in parts if x])` */
  function JoinPresent(parts: seq<string>, sep: string): string {
    Join(Filter(Present, parts), sep)
  }

  /** The join of the present parts is empty exactly when every part is. */
  lemma JoinPresentEmptyIffAllEmpty(parts: seq<string>, sep: string)
    ensures JoinPresent(parts, sep) == "" <==> forall i :: 0 <= i < |parts| ==> parts[i] == ""
  {
    var kept := Filter(Present, parts);
    FilterKeepsSatisfying(Present, parts);
    FilterCounts(Present, parts);
    assert kept != [] ==> kept[0] in multiset(kept);
  }

  /** The two-part join never leaves a dangling separator. */
  lemma JoinPresentPair(a: string, b: string, sep: string)
    ensures JoinPresent([a, b], sep) == if a == "" then b else if b == "" then a else a + sep + b
  {
    FilterCons(Present, a, [b]);
    FilterCons(Present, b, []);
    assert [a, b] == [a] + [b];
    assert [b] == [b] + [];
    var kept := Filter(Present, [a, b]);
    if a != "" && b != "" {
      assert kept == [a, b];
      assert kept[1..] == [b];
      assert Join(kept[1..], sep) == b;
      assert Join(kept, sep) == a + sep + b;
    } else if a != "" {
      assert kept == [a];
    } else if b != "" {
      assert kept == [b];
    } else {
      assert kept == [];
    }
  }

  /** One table row: the row id (shown in backticks), then eleven data cells,
      the last being the glyph followed by the outcome text. */
  datatype TableRow = TableRow(
    row: string,
    platform: string,
    flutter: string,
    runnerOs: string,
    buildJdk: string,
    agp: string,
    gradle: string,
    kotlin: string,
    sdkTriplet: string,
    xcodeSwift: string,
    podsRuby: string,
    glyph: Glyph,
    outcome: string)

  /** The cells of one record, each with its own precedence between the
      requested and the detected values. */
  function RowCells(rec: Record): (c: TableRow)
    ensures c.row == Get(rec.fields, "id") && c.platform == Get(rec.fields, "platform")
    ensures c.flutter == FirstNonEmpty([Get(rec.requested, "flutter_version"), Get(rec.detected, "flutter_version")])
    ensures c.runnerOs == FirstNonEmpty([Get(rec.detected, "runner_os"), Get(rec.requested, "runs_on")])
    ensures c.agp == FirstNonEmpty([Get(rec.detected, "agp_version"), Get(rec.requested, "agp")])
    ensures c.gradle == FirstNonEmpty([Get(rec.detected, "gradle_version"), Get(rec.requested, "gradle")])
    ensures c.kotlin == FirstNonEmpty([Get(rec.detected, "kotlin_version"), Get(rec.requested, "kotlin")])
    ensures c.sdkTriplet == Get(rec.detected, "android_sdk_triplet")
    ensures c.buildJdk == if c.platform == "android" then Get(rec.requested, "jdk") else ""
    ensures c.platform != "ios" ==> c.xcodeSwift == "" && c.podsRuby == ""
    ensures c.platform == "ios" ==>
      && c.xcodeSwift == JoinPresent([Get(rec.detected, "xcode_version"), Get(rec.detected, "swift_version")], " / ")
      && c.podsRuby == JoinPresent([Get(rec.detected, "cocoapods_version"), Get(rec.detected, "ruby_version")], " / ")
    ensures c.outcome == if "outcome" in rec.fields then rec.fields["outcome"] else "fail"
    ensures c.glyph == PassMark <==> "outcome" in rec.fields && rec.fields["outcome"] == "pass"
  {
    var req := rec.requested;
    var det := rec.detected;
    var platform := Get(rec.fields, "platform");
    var ios := platform == "ios";
    var outcome := if "outcome" in rec.fields then rec.fields["outcome"] else "fail";
    OrElseIsFirstNonEmpty(Get(req, "flutter_version"), Get(det, "flutter_version"));
    OrElseIsFirstNonEmpty(Get(det, "runner_os"), Get(req, "runs_on"));
    OrElseIsFirstNonEmpty(Get(det, "agp_version"), Get(req, "agp"));
    OrElseIsFirstNonEmpty(Get(det, "gradle_version"), Get(req, "gradle"));
    OrElseIsFirstNonEmpty(Get(det, "kotlin_version"), Get(req, "kotlin"));
    TableRow(
      Get(rec.fields, "id"),
      platform,
      OrElse(Get(req, "flutter_version"), Get(det, "flutter_version")),
      OrElse(Get(det, "runner_os"), Get(req, "runs_on")),
      if platform == "android" then Get(req, "jdk") else "",
      OrElse(Get(det, "agp_version"), Get(req, "agp")),
      OrElse(Get(det, "gradle_version"), Get(req, "gradle")),
      OrElse(Get(det, "kotlin_version"), Get(req, "kotlin")),
      Get(det, "android_sdk_triplet"),
      if ios then JoinPresent([Get(det, "xcode_version"), Get(det, "swift_version")], " / ") else "",
      if ios then JoinPresent([Get(det, "cocoapods_version"), Get(det, "ruby_version")], " / ") else "",
      Emoji(outcome),
      outcome)
  }

  /** The table body: the loaded records, sorted, one row each. */
  function CompatibilityRows(files: seq<ResultFile>): (rows: seq<TableRow>)
    ensures |rows| == |files|
  {
    var sorted := SortByKey(LoadResults(files));
    assert |sorted| == |files| by {
      assert |multiset(sorted)| == |multiset(LoadResults(files))|;
    }
    seq(|sorted|, i requires 0 <= i < |sorted| => RowCells(sorted[i]))
  }

  /** `sorted` is what a stable sort by key makes of `s`: the same records,
      non-decreasing by key, and records of equal key in their order in `s`. */
  ghost predicate IsStableSortOf(sorted: seq<Record>, s: seq<Record>) {
    && multiset(sorted) == multiset(s)
    && SortedByKey(sorted)
    && forall k :: Filter(WithKey(k), sorted) == Filter(WithKey(k), s)
  }

  /** `rows` renders `records` one row each, in the same order. */
  predicate RendersInOrder(rows: seq<TableRow>, records: seq<Record>) {
    |rows| == |records| && forall i :: 0 <= i < |rows| ==> rows[i] == RowCells(records[i])
  }

  /** The table rows are the cells of the loaded records put in stable
      sort-key order. */
  lemma TableIsSortedRecords(files: seq<ResultFile>)
    ensures exists sorted :: IsStableSortOf(sorted, LoadResults(files)) && RendersInOrder(CompatibilityRows(files), sorted)
  {
    var loaded := LoadResults(files);
    var sorted := SortByKey(loaded);
    assert IsStableSortOf(sorted, loaded) by {
      forall k
        ensures Filter(WithKey(k), sorted) == Filter(WithKey(k), loaded)
      {
        SortIsStable(loaded, k);
      }
    }
    assert RendersInOrder(CompatibilityRows(files), sorted) by {
      assert |sorted| == |loaded| by {
        assert |multiset(sorted)| == |multiset(loaded)|;
      }
    }
  }

  /** Every result file is accounted for by a row of the table. */
  lemma EveryFileHasARow(files: seq<ResultFile>, i: int)
    requires 0 <= i < |files|
    ensures RowCells(LoadResults(files)[i]) in CompatibilityRows(files)
  {
    var loaded := LoadResults(files);
    var sorted := SortByKey(loaded);
    assert loaded[i] in multiset(sorted);
    var j :| 0 <= j < |sorted| && sorted[j] == loaded[i];
    assert CompatibilityRows(files)[j] == RowCells(loaded[i]);
  }

  /** A file that failed to decode shows as a failed row named after the file. */
  lemma UndecodableFileShowsFailure(files: seq<ResultFile>, i: int)
    requires 0 <= i < |files| && files[i].content.Undecodable?
    ensures exists row :: row in CompatibilityRows(files) && row.row == files[i].stem
                          && row.platform == "unknown" && row.glyph == FailMark && row.outcome == "fail"
  {
    EveryFileHasARow(files, i);
  }
}

=== FILE: job_summary.dfy ===
/** The job summary of one matrix row (scripts/ci/job_summary.py): the
    lines printed for a platform and a result file that is missing, is not
    valid JSON, or decodes to a record. Argument parsing, the file-existence
    test, reading and decoding are not modelled (they are the three
    `SummaryInput` cases), and each printed line is a `Line` value rather
    than its Markdown text. */
module JobSummary {
  import opened Strings
  import opened Records
  import opened Sequences

  /** `--platform`, restricted by the argument parser to two choices. */
  datatype Platform = Android | Ios

  /** `args.platform.upper()` */
  function ShoutedName(p: Platform): string {
    match p
    case Android => "ANDROID"
    case Ios => "IOS"
  }

  /** `title_platform` */
  function TitleName(p: Platform): string {
    match p
    case Android => "Android"
    case Ios => "iOS"
  }

  /** What the renderer has to work with. */
  datatype SummaryInput =
    | MissingFile
    | InvalidJson(error: string)
    | Loaded(record: Record)

  /** One printed item of the summary. */
  datatype Line =
    | Heading(platform: string, title: string)
    | OutcomeLine(outcome: string)
    | ErrorLine(message: string)
    | NotesLine(notes: string)
    | FieldLine(name: string, value: string)
    | LogBlock(body: string)

  /** A detected version printed as `- {name}: {value}`. */
  datatype FieldSpec = FieldSpec(name: string, key: string)

  const CommonFields: seq<FieldSpec> :=
    [FieldSpec("Flutter", "flutter_version"), FieldSpec("Dart", "dart_version")]

  const AndroidFields: seq<FieldSpec> :=
    [FieldSpec("Java", "java_version"), FieldSpec("AGP", "agp_version"),
     FieldSpec("Kotlin", "kotlin_version"), FieldSpec("Gradle", "gradle_version")]

  const IosFields: seq<FieldSpec> :=
    [FieldSpec("Xcode", "xcode_version"), FieldSpec("Swift", "swift_version"),
     FieldSpec("CocoaPods", "cocoapods_version"), FieldSpec("Ruby", "ruby_version")]

  /** The detected fields checked for a platform, in printing order. */
  function SummaryFields(p: Platform): seq<FieldSpec> {
    CommonFields + (if p == Android then AndroidFields else IosFields)
  }

  function Labels(specs: seq<FieldSpec>): set<string> {
    set i | 0 <= i < |specs| :: specs[i].name
  }

  /** `l` is the line of one of `specs`, showing its non-empty detected
      value. */
  ghost predicate ShowsField(det: map<string, string>, specs: seq<FieldSpec>, l: Line) {
    && l.FieldLine?
    && l.value != ""
    && exists spec :: spec in specs && l == FieldLine(spec.name, Get(det, spec.key))
  }

  /** One line per spec whose detected value is non-empty, in spec order. */
  function FieldLines(det: map<string, string>, specs: seq<FieldSpec>): (lines: seq<Line>)
    ensures |lines| <= |specs|
    ensures forall i :: 0 <= i < |lines| ==> ShowsField(det, specs, lines[i])
  {
    if specs == [] then []
    else
      var v := Get(det, specs[0].key);
      var rest := FieldLines(det, specs[1..]);
      assert forall j :: 1 <= j < |specs| ==> specs[j] == specs[1..][j - 1];
      var lines := (if v != "" then [FieldLine(specs[0].name, v)] else []) + rest;
      assert forall i :: 0 <= i < |lines| ==> ShowsField(det, specs, lines[i]) by {
        forall i | 0 <= i < |lines|
          ensures ShowsField(det, specs, lines[i])
        {
          if v != "" && i == 0 {
            assert specs[0] in specs;
          } else {
            var k := if v != "" then i - 1 else i;
            assert lines[i] == rest[k];
            var spec :| spec in specs[1..] && rest[k] == FieldLine(spec.name, Get(det, spec.key));
            assert spec in specs;
          }
        }
      }
      lines
  }

  /** Every spec whose detected value is non-empty gets its line. */
  lemma {:induction false} FieldLinesShowEveryField(det: map<string, string>, specs: seq<FieldSpec>)
    ensures forall j :: 0 <= j < |specs| && Get(det, specs[j].key) != "" ==>
      FieldLine(specs[j].name, Get(det, specs[j].key)) in FieldLines(det, specs)
  {
    if specs != [] {
      FieldLinesShowEveryField(det, specs[1..]);
      assert forall j :: 1 <= j < |specs| ==> specs[j] == specs[1..][j - 1];
    }
  }

  /** The line each spec would print, whether or not its value is empty. */
  function Candidates(det: map<string, string>, specs: seq<FieldSpec>): (c: seq<Line>)
    ensures |c| == |specs|
  {
    seq(|specs|, i requires 0 <= i < |specs| => FieldLine(specs[i].name, Get(det, specs[i].key)))
  }

  /** The `if fv:` test guarding each version line. */
  predicate NonEmptyValue(l: Line) {
    l.FieldLine? && l.value != ""
  }

  /** The version lines are the candidate lines with a non-empty value, kept
      in spec order: a reference definition independent of the recursion. */
  lemma {:induction false} FieldLinesAreFilteredCandidates(det: map<string, string>, specs: seq<FieldSpec>)
    ensures FieldLines(det, specs) == Filter(NonEmptyValue, Candidates(det, specs))
  {
    if specs != [] {
      FieldLinesAreFilteredCandidates(det, specs[1..]);
      var c := Candidates(det, specs);
      assert c == [c[0]] + Candidates(det, specs[1..]);
      FilterCons(NonEmptyValue, c[0], Candidates(det, specs[1..]));
    }
  }

  /** Hence the version lines appear in spec order, and each candidate line
      appears exactly as often as specs produce it: at most once per spec. */
  lemma FieldLinesInSpecOrder(det: map<string, string>, specs: seq<FieldSpec>)
    ensures IsSubsequence(FieldLines(det, specs), Candidates(det, specs))
    ensures forall l :: multiset(FieldLines(det, specs))[l] ==
              if NonEmptyValue(l) then multiset(Candidates(det, specs))[l] else 0
  {
    FieldLinesAreFilteredCandidates(det, specs);
    FilterIsSubsequence(NonEmptyValue, Candidates(det, specs));
    FilterCounts(NonEmptyValue, Candidates(det, specs));
  }

  /** No two version lines carry the same label. */
  predicate LabelsDistinct(lines: seq<Line>) {
    forall i, j :: 0 <= i < j < |lines| && lines[i].FieldLine? && lines[j].FieldLine? ==> lines[i].name != lines[j].name
  }

  /** Every version line carries the label of one of the specs. */
  lemma FieldLinesLabelled(det: map<string, string>, specs: seq<FieldSpec>)
    ensures forall l :: l in FieldLines(det, specs) ==> l.FieldLine? && l.name in Labels(specs)
  {
    var lines := FieldLines(det, specs);
    forall l | l in lines
      ensures l.FieldLine? && l.name in Labels(specs)
    {
      var i :| 0 <= i < |lines| && lines[i] == l;
      assert ShowsField(det, specs, lines[i]);
      var spec :| spec in specs && l == FieldLine(spec.name, Get(det, spec.key));
      var k :| 0 <= k < |specs| && specs[k] == spec;
      assert specs[k].name in Labels(specs);
    }
  }

  /** A line in front of lines with other labels keeps the labels distinct. */
  lemma ConsLabelsDistinct(h: Line, rest: seq<Line>)
    requires h.FieldLine? && LabelsDistinct(rest)
    requires forall l :: l in rest && l.FieldLine? ==> l.name != h.name
    ensures LabelsDistinct([h] + rest)
  {
    var lines := [h] + rest;
    forall i, j | 0 <= i < j < |lines| && lines[i].FieldLine? && lines[j].FieldLine?
      ensures lines[i].name != lines[j].name
    {
      assert lines[j] == rest[j - 1];
      if i > 0 {
        assert lines[i] == rest[i - 1];
      }
    }
  }

  /** Specs with distinct labels print lines with distinct labels. */
  lemma {:induction false} FieldLinesNamesDistinct(det: map<string, string>, specs: seq<FieldSpec>)
    requires forall i, j :: 0 <= i < j < |specs| ==> specs[i].name != specs[j].name
    ensures LabelsDistinct(FieldLines(det, specs))
  {
    if specs != [] {
      var rest := FieldLines(det, specs[1..]);
      FieldLinesNamesDistinct(det, specs[1..]);
      FieldLinesLabelled(det, specs[1..]);
      assert specs[0].name !in Labels(specs[1..]) by {
        forall k | 0 <= k < |specs[1..]|
          ensures specs[1..][k].name != specs[0].name
        {
          assert specs[1..][k] == specs[k + 1];
        }
      }
      var v := Get(det, specs[0].key);
      if v != "" {
        ConsLabelsDistinct(FieldLine(specs[0].name, v), rest);
      }
    }
  }

  /** A summary never shows the same version label twice. */
  lemma VersionLinesOncePerField(p: Platform, det: map<string, string>)
    ensures LabelsDistinct(FieldLines(det, SummaryFields(p)))
  {
    FieldLinesNamesDistinct(det, SummaryFields(p));
  }

  /** `_truncate`: the last `maxChars` characters of `s`, all of `s` when it
      is short enough, nothing when the limit is not positive. */
  function Truncate(s: string, maxChars: int): (r: string)
    ensures maxChars <= 0 ==> r == ""
    ensures |s| <= maxChars ==> r == s
    ensures |r| == if maxChars <= 0 then 0 else if |s| <= maxChars then |s| else maxChars
    ensures r == s[|s| - |r|..]
  {
    if maxChars <= 0 then ""
    else if |s| <= maxChars then s
    else s[|s| - maxChars..]
  }

  /** Truncating again to the same limit changes nothing. */
  lemma TruncateIdempotent(s: string, maxChars: int)
    ensures Truncate(Truncate(s, maxChars), maxChars) == Truncate(s, maxChars)
  {
  }

  /** The collapsible log block, present only for a non-blank `log_tail`. */
  function LogLines(rec: Record, maxLogChars: int): (lines: seq<Line>)
    ensures |lines| <= 1 && forall i :: 0 <= i < |lines| ==> lines[i].LogBlock?
  {
    var log := Strip(Get(rec.fields, "log_tail"));
    if log != "" then [LogBlock(Truncate(log, maxLogChars))] else []
  }

  /** There is a log block exactly when the stripped `log_tail` is not
      empty; it holds the last characters of the stripped log, as many as the
      limit allows. */
  lemma LogLinesHoldLogTail(rec: Record, maxLogChars: int)
    ensures var log := Strip(Get(rec.fields, "log_tail"));
            var lines := LogLines(rec, maxLogChars);
            && (lines == [] <==> log == "")
            && (lines != [] ==>
                 && |lines[0].body| == (if maxLogChars <= 0 then 0 else if |log| <= maxLogChars then |log| else maxLogChars)
                 && lines[0].body == log[|log| - |lines[0].body|..])
  {
  }

  /** The heading, the outcome line and, for non-empty notes, the notes
      line of a decoded record. */
  function HeadLines(p: Platform, rec: Record, stem: string): (lines: seq<Line>)
    ensures |lines| == (if Get(rec.fields, "notes") != "" then 3 else 2)
    ensures lines[0].Heading? && lines[1].OutcomeLine?
    ensures |lines| == 3 ==> lines[2] == NotesLine(Get(rec.fields, "notes"))
  {
    var notes := Get(rec.fields, "notes");
    [Heading(TitleName(p), OrElse(Get(rec.fields, "id"), stem)),
     OutcomeLine(OrElse(Get(rec.fields, "outcome"), "unknown"))]
    + (if notes != "" then [NotesLine(notes)] else [])
  }

  /** The lines `main` prints. */
  function Summary(p: Platform, input: SummaryInput, stem: string, maxLogChars: int): (lines: seq<Line>)
    ensures input.MissingFile? ==>
      lines == [Heading(ShoutedName(p), "(missing result JSON)"), OutcomeLine("no result JSON produced")]
    ensures input.InvalidJson? ==>
      lines == [Heading(ShoutedName(p), "(invalid JSON)"), OutcomeLine("invalid JSON"), ErrorLine(input.error)]
  {
    match input
    case MissingFile =>
      [Heading(ShoutedName(p), "(missing result JSON)"), OutcomeLine("no result JSON produced")]
    case InvalidJson(error) =>
      [Heading(ShoutedName(p), "(invalid JSON)"), OutcomeLine("invalid JSON"), ErrorLine(error)]
    case Loaded(rec) =>
      HeadLines(p, rec, stem) + FieldLines(rec.detected, SummaryFields(p)) + LogLines(rec, maxLogChars)
  }

  /** Where a line may stand in the summary of a decoded record: the
      heading, then the outcome, then the notes, then the version lines, then
      the log block. */
  function Rank(l: Line): nat {
    match l
    case Heading(_, _) => 0
    case OutcomeLine(_) => 1
    case NotesLine(_) => 2
    case FieldLine(_, _) => 3
    case LogBlock(_) => 4
    case ErrorLine(_) => 5
  }

  /** After the first two lines every line is a notes line, a version line
      or a log block; lines never go back to an earlier kind; and only
      version lines share their kind with a later line. */
  predicate InSummaryOrder(lines: seq<Line>) {
    && (forall i :: 2 <= i < |lines| ==> 2 <= Rank(lines[i]) <= 4)
    && (forall i, j :: 0 <= i < j < |lines| ==> Rank(lines[i]) <= Rank(lines[j]))
    && (forall i, j :: 0 <= i < j < |lines| && Rank(lines[i]) == Rank(lines[j]) ==> lines[i].FieldLine?)
  }

  /** The order argument on the parts: a heading, an outcome line, at most
      one notes line, version lines, at most one log block. */
  lemma PartsInOrder(lines: seq<Line>, h: Line, o: Line, b: seq<Line>, c: seq<Line>, d: seq<Line>)
    requires lines == [h, o] + b + c + d
    requires h.Heading? && o.OutcomeLine?
    requires |b| <= 1 && forall i :: 0 <= i < |b| ==> b[i].NotesLine?
    requires forall i :: 0 <= i < |c| ==> c[i].FieldLine?
    requires |d| <= 1 && forall i :: 0 <= i < |d| ==> d[i].LogBlock?
    ensures InSummaryOrder(lines)
  {
    forall i | 0 <= i < |lines|
      ensures Rank(lines[i]) ==
        if i == 0 then 0 else if i == 1 then 1 else if i < 2 + |b| then 2 else if i < 2 + |b| + |c| then 3 else 4
    {
      if 2 <= i < 2 + |b| {
        assert lines[i] == b[i - 2];
      } else if 2 + |b| <= i < 2 + |b| + |c| {
        assert lines[i] == c[i - 2 - |b|];
      } else if 2 + |b| + |c| <= i {
        assert lines[i] == d[i - 2 - |b| - |c|];
      }
    }
  }

  /** A decoded record's summary opens with its one heading and its one
      outcome line; after them come at most one notes line, the version
      lines and at most one log block, in that order, and no error line. */
  lemma SummaryLineOrder(p: Platform, rec: Record, stem: string, maxLogChars: int)
    ensures var lines := Summary(p, Loaded(rec), stem, maxLogChars);
            |lines| >= 2 && lines[0].Heading? && lines[1].OutcomeLine? && InSummaryOrder(lines)
  {
    var h := HeadLines(p, rec, stem);
    var lines := Summary(p, Loaded(rec), stem, maxLogChars);
    assert h == [h[0], h[1]] + h[2..];
    PartsInOrder(lines, h[0], h[1], h[2..], FieldLines(rec.detected, SummaryFields(p)), LogLines(rec, maxLogChars));
  }

  /** The heading names the record's id, or the file stem when the id is
      absent or empty; the outcome line reads "unknown" when the outcome is
      absent or empty. */
  lemma HeadingAndOutcome(p: Platform, rec: Record, stem: string, maxLogChars: int)
    ensures var lines := Summary(p, Loaded(rec), stem, maxLogChars);
            && |lines| >= 2
            && lines[0] == Heading(TitleName(p), FirstNonEmpty([Get(rec.fields, "id"), stem]))
            && lines[1] == OutcomeLine(FirstNonEmpty([Get(rec.fields, "outcome"), "unknown"]))
  {
    var h := HeadLines(p, rec, stem);
    var lines := Summary(p, Loaded(rec), stem, maxLogChars);
    assert lines[0] == h[0] && lines[1] == h[1];
    OrElseIsFirstNonEmpty(Get(rec.fields, "id"), stem);
    OrElseIsFirstNonEmpty(Get(rec.fields, "outcome"), "unknown");
  }

  /** A notes line appears exactly when the record has non-empty notes, and
      then shows them. */
  lemma NotesShownIffPresent(p: Platform, rec: Record, stem: string, maxLogChars: int, text: string)
    ensures NotesLine(text) in Summary(p, Loaded(rec), stem, maxLogChars)
            <==> text != "" && text == Get(rec.fields, "notes")
  {
    var h := HeadLines(p, rec, stem);
    var f := FieldLines(rec.detected, SummaryFields(p));
    var g := LogLines(rec, maxLogChars);
    InConcat3(NotesLine(text), h, f, g);
    assert NotesLine(text) !in f;
    assert NotesLine(text) !in g;
    assert NotesLine(text) in h <==> |h| == 3 && h[2] == NotesLine(text);
  }

  /** The test that picks the version lines out of a summary. */
  predicate IsFieldLine(l: Line) {
    l.FieldLine?
  }

  /** When only the middle part holds version lines, picking the version
      lines out of the whole gives back exactly the middle part. */
  lemma VersionPartOfParts(lines: seq<Line>, h: seq<Line>, f: seq<Line>, g: seq<Line>)
    requires lines == h + f + g
    requires forall i :: 0 <= i < |h| ==> !h[i].FieldLine?
    requires forall i :: 0 <= i < |f| ==> f[i].FieldLine?
    requires forall i :: 0 <= i < |g| ==> !g[i].FieldLine?
    ensures Filter(IsFieldLine, lines) == f
  {
    FilterAppend(IsFieldLine, h + f, g);
    FilterAppend(IsFieldLine, h, f);
    FilterNone(IsFieldLine, h);
    FilterNone(IsFieldLine, g);
    FilterKeepsAll(IsFieldLine, f);
  }

  /** Picking the version lines out of a decoded record's summary gives
      exactly the version part, in the same order and with the same
      repetitions. */
  lemma SummaryVersionLinesAreFieldLines(p: Platform, rec: Record, stem: string, maxLogChars: int)
    ensures Filter(IsFieldLine, Summary(p, Loaded(rec), stem, maxLogChars)) == FieldLines(rec.detected, SummaryFields(p))
  {
    var h := HeadLines(p, rec, stem);
    var f := FieldLines(rec.detected, SummaryFields(p));
    var g := LogLines(rec, maxLogChars);
    var lines := Summary(p, Loaded(rec), stem, maxLogChars);
    assert lines == h + f + g;
    forall i | 0 <= i < |h|
      ensures !h[i].FieldLine?
    {
      if i >= 2 {
        assert h[2] == NotesLine(Get(rec.fields, "notes"));
      }
    }
    assert forall i :: 0 <= i < |f| ==> f[i].FieldLine?;
    VersionPartOfParts(lines, h, f, g);
  }

  /** The printed version lines follow the order of the field checks and
      repeat no label. */
  lemma SummaryVersionLinesInFieldOrder(p: Platform, rec: Record, stem: string, maxLogChars: int)
    ensures var v := Filter(IsFieldLine, Summary(p, Loaded(rec), stem, maxLogChars));
            IsSubsequence(v, Candidates(rec.detected, SummaryFields(p))) && LabelsDistinct(v)
  {
    SummaryVersionLinesAreFieldLines(p, rec, stem, maxLogChars);
    FieldLinesInSpecOrder(rec.detected, SummaryFields(p));
    VersionLinesOncePerField(p, rec.detected);
  }

  /** The version lines of a decoded record's summary are those of its
      version part. */
  lemma FieldLinesOfSummary(p: Platform, rec: Record, stem: string, maxLogChars: int)
    ensures forall l :: l in Summary(p, Loaded(rec), stem, maxLogChars) && l.FieldLine? ==>
              l in FieldLines(rec.detected, SummaryFields(p))
    ensures forall l :: l in FieldLines(rec.detected, SummaryFields(p)) ==>
              l in Summary(p, Loaded(rec), stem, maxLogChars)
  {
    var h := HeadLines(p, rec, stem);
    var f := FieldLines(rec.detected, SummaryFields(p));
    var g := LogLines(rec, maxLogChars);
    forall l: Line | l in h + f + g && l.FieldLine?
      ensures l in f
    {
      InConcat3(l, h, f, g);
      assert l !in h;
    }
    forall l | l in f
      ensures l in h + f + g
    {
      InConcat3(l, h, f, g);
    }
  }

  /** Every version line shows a non-empty detected value of a field the
      platform checks, and every such field with a non-empty value is shown. */
  lemma VersionLinesFollowPlatform(p: Platform, rec: Record, stem: string, maxLogChars: int)
    ensures forall l :: l in Summary(p, Loaded(rec), stem, maxLogChars) && l.FieldLine? ==>
              ShowsField(rec.detected, SummaryFields(p), l)
    ensures forall j :: 0 <= j < |SummaryFields(p)| && Get(rec.detected, SummaryFields(p)[j].key) != "" ==>
              FieldLine(SummaryFields(p)[j].name, Get(rec.detected, SummaryFields(p)[j].key))
              in Summary(p, Loaded(rec), stem, maxLogChars)
  {
    FieldLinesOfSummary(p, rec, stem, maxLogChars);
    FieldLinesShowEveryField(rec.detected, SummaryFields(p));
    var f := FieldLines(rec.detected, SummaryFields(p));
    forall l | l in f
      ensures ShowsField(rec.detected, SummaryFields(p), l)
    {
      var i :| 0 <= i < |f| && f[i] == l;
    }
  }

  /** An Android summary shows no iOS tool versions, and an iOS summary no
      Android ones. */
  lemma OnlyOwnPlatformVersions(p: Platform, rec: Record, stem: string, maxLogChars: int)
    ensures forall l :: l in Summary(p, Loaded(rec), stem, maxLogChars) && l.FieldLine? ==>
              l.name !in Labels(if p == Android then IosFields else AndroidFields)
  {
    VersionLinesFollowPlatform(p, rec, stem, maxLogChars);
    var own := SummaryFields(p);
    var other := Labels(if p == Android then IosFields else AndroidFields);
    assert forall j :: 0 <= j < |own| ==> own[j].name !in other;
    forall l | l in Summary(p, Loaded(rec), stem, maxLogChars) && l.FieldLine?
      ensures l.name !in other
    {
      assert ShowsField(rec.detected, own, l);
      var spec :| spec in own && l == FieldLine(spec.name, Get(rec.detected, spec.key));
    }
  }

  /** The log block appears exactly when the stripped `log_tail` is not
      empty, and then holds the tail of the stripped log cut to the limit. */
  lemma LogBlockIffLogPresent(p: Platform, rec: Record, stem: string, maxLogChars: int, body: string)
    ensures LogBlock(body) in Summary(p, Loaded(rec), stem, maxLogChars)
            <==> (var log := Strip(Get(rec.fields, "log_tail")); log != "" && body == Truncate(log, maxLogChars))
  {
    var h := HeadLines(p, rec, stem);
    var f := FieldLines(rec.detected, SummaryFields(p));
    var g := LogLines(rec, maxLogChars);
    InConcat3(LogBlock(body), h, f, g);
    assert LogBlock(body) !in h;
    assert LogBlock(body) !in f;
    assert LogBlock(body) in g <==>
      (var log := Strip(Get(rec.fields, "log_tail")); log != "" && body == Truncate(log, maxLogChars));
  }

  /** When there is a log block, it is the last line. */
  lemma LogBlockIsLast(p: Platform, rec: Record, stem: string, maxLogChars: int)
    requires Strip(Get(rec.fields, "log_tail")) != ""
    ensures var lines := Summary(p, Loaded(rec), stem, maxLogChars);
            lines[|lines| - 1] == LogBlock(Truncate(Strip(Get(rec.fields, "log_tail")), maxLogChars))
  {
  }
}

=== FILE: matrix_rows.dfy ===
/** Selection of build-matrix rows by id list and `key=value` filters
    (scripts/ci/extract_matrix_rows.py). Reading the matrix file, JSON
    decoding and the compact JSON printed at the end are not modelled: the
    decoded document is an input and the selected rows are the output. */
module MatrixRows {
  import opened Wrappers
  import opened Strings
  import opened Sequences

  /** A scalar value of a matrix row: a JSON string, or any other scalar
      together with the text Python's `str()` renders for it
      (`17` -> "17", `true` -> "True", `null` -> "None"). */
  datatype Scalar = Text(s: string) | Other(shown: string)

  /** One row of the matrix document. */
  type Row = map<string, Scalar>

  /** `str(v)` */
  function Show(v: Scalar): string {
    match v
    case Text(s) => s
    case Other(shown) => shown
  }

  /** `str(row.get(k, ""))`: a missing key reads as the empty string, so it
      cannot be told apart from a key holding "". */
  function Shown(row: Row, k: string): (s: string)
    ensures s == Show(if k in row then row[k] else Text(""))
  {
    if k in row then Show(row[k]) else ""
  }

  /** A missing key and a key holding the empty string read the same. */
  lemma MissingKeyReadsAsEmpty(row: Row, k: string)
    requires k !in row
    ensures Shown(row, k) == Shown(row[k := Text("")], k)
  {
  }

  /** One parsed `--filter key=value` argument. */
  datatype Criterion = Criterion(key: string, value: string)

  /** `c` is what `k.strip(), v.strip()` gives for `f == k + "=" + v`
      split at its first `=`, that is with no `=` in `k`. */
  ghost predicate ParsesTo(f: string, c: Criterion) {
    exists k, v {:trigger Strip(k), Strip(v)} ::
      f == k + "=" + v && '=' !in k && c == Criterion(Strip(k), Strip(v))
  }

  /** One `--filter` argument: rejected (carrying the argument) when it holds
      no `=`, otherwise split at its first `=` with both halves trimmed. */
  function ParseFilter(f: string): (r: Result<Criterion, string>)
    ensures r.Err? <==> '=' !in f
    ensures r.Err? ==> r.error == f
  {
    match SplitFirst(f, '=')
    case None => Err(f)
    case Some((k, v)) => Ok(Criterion(Strip(k), Strip(v)))
  }

  /** A parsed argument is the trimmed key and value around its first `=`. */
  lemma ParseFilterSplitsAtFirstEquals(f: string)
    requires '=' in f
    ensures ParsesTo(f, ParseFilter(f).value)
  {
    var (k, v) := SplitFirst(f, '=').value;
    assert f == k + "=" + v;
  }

  /** `parse_filters`: one criterion per argument, in order, or failure as
      soon as an argument cannot be parsed. */
  function ParseFilters(fs: seq<string>): (r: Result<seq<Criterion>, string>)
    ensures r.Err? <==> exists i :: 0 <= i < |fs| && ParseFilter(fs[i]).Err?
    ensures r.Ok? ==> |r.value| == |fs| && forall i :: 0 <= i < |fs| ==> ParseFilter(fs[i]) == Ok(r.value[i])
  {
    var rs := seq(|fs|, i requires 0 <= i < |fs| => ParseFilter(fs[i]));
    assert forall i :: 0 <= i < |fs| ==> rs[i] == ParseFilter(fs[i]);
    CollectAll(rs)
  }

  /** The error names the first argument without `=`. */
  lemma FirstBadFilterReported(fs: seq<string>)
    requires ParseFilters(fs).Err?
    ensures exists i :: 0 <= i < |fs| && ParseFilters(fs).error == fs[i] && '=' !in fs[i]
                        && forall j :: 0 <= j < i ==> '=' in fs[j]
  {
    var rs := seq(|fs|, i requires 0 <= i < |fs| => ParseFilter(fs[i]));
    CollectAllReportsFirstError(rs);
    var i :| 0 <= i < |rs| && rs[i] == Err(CollectAll(rs).error) && forall j :: 0 <= j < i ==> rs[j].Ok?;
    assert rs[i] == ParseFilter(fs[i]);
    assert ParseFilters(fs).error == fs[i];
    forall j | 0 <= j < i
      ensures '=' in fs[j]
    {
      assert rs[j] == ParseFilter(fs[j]);
    }
  }

  /** `matches`: the row agrees with every criterion, comparing the row's
      value as rendered by `str()` and untrimmed. */
  function Matches(row: Row, criteria: seq<Criterion>): (b: bool)
    ensures b <==> forall i :: 0 <= i < |criteria| ==> Shown(row, criteria[i].key) == criteria[i].value
  {
    if criteria == [] then true
    else if Shown(row, criteria[0].key) != criteria[0].value then false
    else Matches(row, criteria[1..])
  }

  /** The set built from `--ids`: trimmed, non-empty, comma-separated tokens. */
  function AllowedIds(ids: string): (allowed: set<string>)
    ensures forall x :: x in allowed ==> x != "" && ',' !in x && Strip(x) == x
    ensures forall p :: p in Split(ids, ',') && Strip(p) != "" ==> Strip(p) in allowed
    ensures forall x :: x in allowed ==> exists p :: p in Split(ids, ',') && Strip(p) == x
  {
    var allowed := set p | p in Split(ids, ',') && Strip(p) != "" :: Strip(p);
    forall x | x in allowed
      ensures x != "" && ',' !in x && Strip(x) == x
    {
      var p :| p in Split(ids, ',') && Strip(p) != "" && Strip(p) == x;
      StripIdempotent(p);
      if ',' in x {
        StripKeepsCharacters(p, ',');
      }
    }
    allowed
  }

  /** Python `r.get("id") in allowed`: the row has an `id` that is a string
      in the set (a numeric id never equals a string token). */
  function IdAllowed(row: Row, allowed: set<string>): (b: bool)
    ensures b <==> exists x :: x in allowed && "id" in row && row["id"] == Text(x)
    ensures "id" in row && row["id"].Other? ==> !b
  {
    "id" in row && row["id"].Text? && row["id"].s in allowed
  }

  /** The id stage as a predicate on rows: every row passes when `--ids`
      is blank. */
  function IdGate(ids: string): Row -> bool {
    row => Strip(ids) == "" || IdAllowed(row, AllowedIds(ids))
  }

  /** The filter stage as a predicate on rows. */
  function MatchGate(criteria: seq<Criterion>): Row -> bool {
    row => Matches(row, criteria)
  }

  /** The single conjunctive condition a selected row meets: its id is
      allowed (when `--ids` is not blank) and it matches every criterion. */
  predicate Admitted(row: Row, ids: string, criteria: seq<Criterion>) {
    IdGate(ids)(row) && MatchGate(criteria)(row)
  }

  function Admit(ids: string, criteria: seq<Criterion>): Row -> bool {
    row => Admitted(row, ids, criteria)
  }

  /** The id stage: skipped when `--ids` is blank, otherwise keeps the rows
      whose id is in the allowed set. */
  function RestrictToIds(rows: seq<Row>, ids: string): (r: seq<Row>)
    ensures r == Filter(IdGate(ids), rows)
  {
    if Strip(ids) != "" then
      assert Filter(IdGate(ids), rows) == Filter(row => IdAllowed(row, AllowedIds(ids)), rows) by {
        FilterExtensional(IdGate(ids), row => IdAllowed(row, AllowedIds(ids)), rows);
      }
      Filter(row => IdAllowed(row, AllowedIds(ids)), rows)
    else
      assert Filter(IdGate(ids), rows) == rows by {
        FilterKeepsAll(IdGate(ids), rows);
      }
      rows
  }

  /** The filter stage: skipped when there are no criteria, otherwise keeps
      the rows matching all of them. */
  function RestrictToCriteria(rows: seq<Row>, criteria: seq<Criterion>): (r: seq<Row>)
    ensures r == Filter(MatchGate(criteria), rows)
  {
    if criteria != [] then Filter(MatchGate(criteria), rows)
    else
      assert Filter(MatchGate(criteria), rows) == rows by {
        FilterKeepsAll(MatchGate(criteria), rows);
      }
      rows
  }

  /** The two stages in the order the script runs them. */
  function SelectRows(rows: seq<Row>, ids: string, criteria: seq<Criterion>): (r: seq<Row>)
    ensures r == Filter(Admit(ids, criteria), rows)
  {
    var r := RestrictToCriteria(RestrictToIds(rows, ids), criteria);
    assert r == Filter(Admit(ids, criteria), rows) by {
      FilterFuse(IdGate(ids), MatchGate(criteria), Admit(ids, criteria), rows);
    }
    r
  }

  /** The selection is an order-preserving subsequence of the matrix rows. */
  lemma SelectionIsSubsequence(rows: seq<Row>, ids: string, criteria: seq<Criterion>)
    ensures IsSubsequence(SelectRows(rows, ids, criteria), rows)
  {
    FilterIsSubsequence(Admit(ids, criteria), rows);
  }

  /** The selection keeps exactly the rows meeting the conjunctive condition. */
  lemma SelectionKeepsExactlyAdmitted(rows: seq<Row>, ids: string, criteria: seq<Criterion>)
    ensures forall i :: 0 <= i < |SelectRows(rows, ids, criteria)| ==> Admitted(SelectRows(rows, ids, criteria)[i], ids, criteria)
    ensures forall i :: 0 <= i < |rows| && Admitted(rows[i], ids, criteria) ==> rows[i] in SelectRows(rows, ids, criteria)
  {
    FilterKeepsSatisfying(Admit(ids, criteria), rows);
  }

  /** Each admitted row is selected as often as it occurs in the matrix, and
      no other row is selected at all. */
  lemma SelectionKeepsCounts(rows: seq<Row>, ids: string, criteria: seq<Criterion>)
    ensures forall row :: multiset(SelectRows(rows, ids, criteria))[row] ==
              if Admitted(row, ids, criteria) then multiset(rows)[row] else 0
  {
    var selected := SelectRows(rows, ids, criteria);
    FilterCounts(Admit(ids, criteria), rows);
    forall row
      ensures multiset(selected)[row] == if Admitted(row, ids, criteria) then multiset(rows)[row] else 0
    {
      assert Admit(ids, criteria)(row) == Admitted(row, ids, criteria);
    }
  }

  /** With blank `--ids` and no filter, every row is selected, in order. */
  lemma UnrestrictedSelectionIsIdentity(rows: seq<Row>, ids: string)
    requires Strip(ids) == ""
    ensures SelectRows(rows, ids, []) == rows
  {
    FilterKeepsAll(Admit(ids, []), rows);
  }

  /** Running the filter stage before the id stage selects the same rows. */
  lemma StagesCommute(rows: seq<Row>, ids: string, criteria: seq<Criterion>)
    ensures RestrictToIds(RestrictToCriteria(rows, criteria), ids) == SelectRows(rows, ids, criteria)
  {
    FilterFuse(MatchGate(criteria), IdGate(ids), Admit(ids, criteria), rows);
  }

  /** The matrix document as decoded, or the reason it could not be read. */
  datatype MatrixSource = Unreadable(reason: string) | Document(rows: Option<seq<Row>>)

  /** `data.get("rows", [])` */
  function RowsOf(doc: MatrixSource): seq<Row>
    requires doc.Document?
  {
    match doc.rows
    case None => []
    case Some(rows) => rows
  }

  /** The two fatal errors: the matrix cannot be read or decoded, or a
      filter argument has no `=`. */
  datatype ExtractError = BadMatrix(reason: string) | BadFilter(arg: string)

  /** `main`: decode the matrix, then parse the filters, then select. */
  function Extract(src: MatrixSource, filterArgs: seq<string>, ids: string): (r: Result<seq<Row>, ExtractError>)
    ensures src.Unreadable? ==> r == Err(BadMatrix(src.reason))
    ensures src.Document? ==> (r.Err? <==> exists i :: 0 <= i < |filterArgs| && '=' !in filterArgs[i])
    ensures r.Err? && r.error.BadFilter? ==> r.error.arg in filterArgs && '=' !in r.error.arg
    ensures r.Ok? ==> src.Document? && r.value == Filter(Admit(ids, ParseFilters(filterArgs).value), RowsOf(src))
  {
    match src
    case Unreadable(reason) => Err(BadMatrix(reason))
    case Document(_) =>
      match ParseFilters(filterArgs)
      case Err(f) =>
        FirstBadFilterReported(filterArgs);
        Err(BadFilter(f))
      case Ok(criteria) => Ok(SelectRows(RowsOf(src), ids, criteria))
  }

  /** Parsed keys and values carry no surrounding white space. */
  lemma ParsedCriteriaAreTrimmed(fs: seq<string>, i: int)
    requires 0 <= i < |fs|
    ensures ParseFilters(fs).Ok? ==>
      var c := ParseFilters(fs).value[i]; Strip(c.key) == c.key && Strip(c.value) == c.value
  {
    if ParseFilters(fs).Ok? {
      ParseFilterSplitsAtFirstEquals(fs[i]);
      var k, v :| fs[i] == k + "=" + v && '=' !in k && ParseFilters(fs).value[i] == Criterion(Strip(k), Strip(v));
      StripIdempotent(k);
      StripIdempotent(v);
    }
  }

  /** Rows are compared untrimmed: a row whose value has surrounding white
      space never satisfies a parsed filter on that key. */
  lemma PaddedValueNeverMatches(row: Row, fs: seq<string>, i: int)
    requires 0 <= i < |fs| && '=' in fs[i]
    requires var k := ParseFilter(fs[i]).value.key; Strip(Shown(row, k)) != Shown(row, k)
    ensures ParseFilters(fs).Ok? ==> !Matches(row, ParseFilters(fs).value)
  {
    if ParseFilters(fs).Ok? {
      ParsedCriteriaAreTrimmed(fs, i);
    }
  }

  /** `--ids` written as a comma-separated list of clean ids allows exactly
      those ids. */
  lemma AllowedIdsOfJoin(xs: seq<string>)
    requires forall i :: 0 <= i < |xs| ==> xs[i] != "" && ',' !in xs[i] && Strip(xs[i]) == xs[i]
    ensures AllowedIds(Join(xs, ",")) == set i | 0 <= i < |xs| :: xs[i]
  {
    if xs != [] {
      SplitJoin(xs, ',');
    } else {
      assert Split("", ',') == [""];
    }
  }
}

=== FILE: records.dfy ===
/** The per-row result record that the build jobs write and the two report
    scripts read (scripts/ci/generate_compatibility_md.py and
    scripts/ci/job_summary.py). */
module Records {

  /** A decoded result record. `fields` holds the top-level string fields
      (`id`, `platform`, `outcome`, `notes`, `log_tail`); `requested` and
      `detected` hold the two nested objects. Both scripts read the nested
      objects through `d.get(...) or {}`, so an absent, null or empty object
      is the empty map here. */
  datatype Record = Record(
    fields: map<string, string>,
    requested: map<string, string>,
    detected: map<string, string>)

  /** `m.get(k, "")` */
  function Get(m: map<string, string>, k: string): string {
    if k in m then m[k] else ""
  }
}

=== FILE: sequences.dfy ===
/** Python list comprehensions of the form `[x for x in xs if p(x)]`, and the
    order-preserving subsequence relation they produce. */
module Sequences {

  /** `a` can be obtained from `b` by deleting elements, keeping the order of
      those that remain. */
  predicate IsSubsequence<T(==)>(a: seq<T>, b: seq<T>)
    decreases |b|
  {
    if a == [] then true
    else if b == [] then false
    else (a[0] == b[0] && IsSubsequence(a[1..], b[1..])) || IsSubsequence(a, b[1..])
  }

  /** `[x for x in s if p(x)]`. */
  function Filter<T>(p: T -> bool, s: seq<T>): (r: seq<T>)
    ensures |r| <= |s|
    ensures forall i :: 0 <= i < |r| ==> p(r[i])
  {
    if s == [] then []
    else if p(s[0]) then [s[0]] + Filter(p, s[1..])
    else Filter(p, s[1..])
  }

  /** Filtering one element in front of a sequence. */
  lemma FilterCons<T>(p: T -> bool, x: T, s: seq<T>)
    ensures Filter(p, [x] + s) == (if p(x) then [x] else []) + Filter(p, s)
  {
    assert ([x] + s)[1..] == s;
  }

  /** What a filter keeps is a subsequence of its input. */
  lemma {:induction false} FilterIsSubsequence<T>(p: T -> bool, s: seq<T>)
    ensures IsSubsequence(Filter(p, s), s)
  {
    if s != [] {
      FilterIsSubsequence(p, s[1..]);
    }
  }

  /** Every element satisfying the predicate survives the filter. */
  lemma {:induction false} FilterKeepsSatisfying<T>(p: T -> bool, s: seq<T>)
    ensures forall i :: 0 <= i < |s| && p(s[i]) ==> s[i] in Filter(p, s)
  {
    if s != [] {
      FilterKeepsSatisfying(p, s[1..]);
      assert forall i :: 1 <= i < |s| ==> s[i] == s[1..][i - 1];
    }
  }

  /** Membership in a three-part concatenation is membership in one of the
      parts. */
  lemma InConcat3<T>(x: T, a: seq<T>, b: seq<T>, c: seq<T>)
    ensures x in a + b + c <==> x in a || x in b || x in c
  {
  }

  /** The filter keeps every satisfying element as often as it occurs, and
      nothing else. */
  lemma {:induction false} FilterCounts<T>(p: T -> bool, s: seq<T>)
    ensures forall x :: multiset(Filter(p, s))[x] == if p(x) then multiset(s)[x] else 0
  {
    if s != [] {
      FilterCounts(p, s[1..]);
      assert s == [s[0]] + s[1..];
      FilterCons(p, s[0], s[1..]);
    }
  }

  /** A filter whose predicate holds everywhere in `s` keeps all of `s`. */
  lemma {:induction false} FilterKeepsAll<T>(p: T -> bool, s: seq<T>)
    requires forall i :: 0 <= i < |s| ==> p(s[i])
    ensures Filter(p, s) == s
  {
    if s != [] {
      FilterKeepsAll(p, s[1..]);
    }
  }

  /** Filtering a concatenation filters each part. */
  lemma {:induction false} FilterAppend<T>(p: T -> bool, a: seq<T>, b: seq<T>)
    ensures Filter(p, a + b) == Filter(p, a) + Filter(p, b)
  {
    if a == [] {
      assert a + b == b;
    } else {
      FilterAppend(p, a[1..], b);
      assert (a + b)[1..] == a[1..] + b;
    }
  }

  /** A filter that rejects every element keeps nothing. */
  lemma {:induction false} FilterNone<T>(p: T -> bool, s: seq<T>)
    requires forall i :: 0 <= i < |s| ==> !p(s[i])
    ensures Filter(p, s) == []
  {
    if s != [] {
      FilterNone(p, s[1..]);
    }
  }

  /** Filtering depends only on the predicate's values on the elements. */
  lemma {:induction false} FilterExtensional<T>(p: T -> bool, q: T -> bool, s: seq<T>)
    requires forall i :: 0 <= i < |s| ==> p(s[i]) == q(s[i])
    ensures Filter(p, s) == Filter(q, s)
  {
    if s != [] {
      FilterExtensional(p, q, s[1..]);
    }
  }

  /** Two filters in a row are one filter by the conjunction. */
  lemma {:induction false} FilterFuse<T>(p: T -> bool, q: T -> bool, pq: T -> bool, s: seq<T>)
    requires forall i :: 0 <= i < |s| ==> pq(s[i]) == (p(s[i]) && q(s[i]))
    ensures Filter(q, Filter(p, s)) == Filter(pq, s)
  {
    if s != [] {
      FilterFuse(p, q, pq, s[1..]);
    }
  }
}

=== FILE: strings.dfy ===
/** The handful of Python string operations the report scripts rely on:
    `str.isspace`, `str.strip`, `str.split`, `str.join`, the `in` test for a
    character, and the code-point ordering of `<` on strings. */
module Strings {
  import opened Wrappers

  /** Python's `str.isspace()` on one character: the Unicode white-space
      characters (bidirectional class WS, B or S, or category Zs). */
  predicate IsSpace(c: char) {
    || ('\t' <= c <= '\r')
    || ('\U{1C}' <= c <= '\U{1F}')
    || c == ' '
    || c == '\U{85}'
    || c == '\U{A0}'
    || c == '\U{1680}'
    || ('\U{2000}' <= c <= '\U{200A}')
    || c == '\U{2028}'
    || c == '\U{2029}'
    || c == '\U{202F}'
    || c == '\U{205F}'
    || c == '\U{3000}'
  }

  /** The same characters listed one by one, as Python's Unicode database
      classifies them. */
  const WhiteSpaceTable: string :=
    "\t\n\U{0B}\U{0C}\r\U{1C}\U{1D}\U{1E}\U{1F} \U{85}\U{A0}\U{1680}"
    + "\U{2000}\U{2001}\U{2002}\U{2003}\U{2004}\U{2005}\U{2006}\U{2007}\U{2008}\U{2009}\U{200A}"
    + "\U{2028}\U{2029}\U{202F}\U{205F}\U{3000}"

  /** `IsSpace` accepts exactly the 29 characters of the table. */
  lemma IsSpaceMatchesTable(c: char)
    ensures IsSpace(c) <==> c in WhiteSpaceTable
    ensures |WhiteSpaceTable| == 29
  {
  }

  predicate AllSpace(s: string) {
    forall k :: 0 <= k < |s| ==> IsSpace(s[k])
  }

  /** Number of white-space characters at the start of `s`. */
  function LeadingSpaces(s: string): (n: nat)
    ensures n <= |s|
    ensures AllSpace(s[..n])
    ensures n < |s| ==> !IsSpace(s[n])
  {
    if s == [] || !IsSpace(s[0]) then 0 else 1 + LeadingSpaces(s[1..])
  }

  /** Number of white-space characters at the end of `s`. */
  function TrailingSpaces(s: string): (n: nat)
    ensures n <= |s|
    ensures AllSpace(s[|s| - n..])
    ensures n < |s| ==> !IsSpace(s[|s| - 1 - n])
  {
    if s == [] || !IsSpace(s[|s| - 1]) then 0
    else
      var t := s[..|s| - 1];
      var n := TrailingSpaces(t);
      var tail := s[|s| - 1 - n..];
      assert AllSpace(tail) by {
        var front := t[|t| - n..];
        assert tail == front + [s[|s| - 1]];
        forall k | 0 <= k < |tail|
          ensures IsSpace(tail[k])
        {
          if k < n {
            assert tail[k] == front[k];
          }
        }
      }
      assert n + 1 < |s| ==> s[|s| - 2 - n] == t[|t| - 1 - n];
      1 + n
  }

  /** `r` is what is left of `s` once white space is removed from both ends:
      a contiguous piece of `s`, with only white space cut away around it,
      that neither starts nor ends with white space. */
  ghost predicate IsStripOf(r: string, s: string) {
    && (exists i, j :: 0 <= i <= j <= |s| && r == s[i..j] && AllSpace(s[..i]) && AllSpace(s[j..]))
    && (r == [] || (!IsSpace(r[0]) && !IsSpace(r[|r| - 1])))
  }

  /** Python's `s.strip()`. */
  function Strip(s: string): (r: string)
    ensures |r| <= |s|
    ensures r == [] || (!IsSpace(r[0]) && !IsSpace(r[|r| - 1]))
  {
    var t := s[LeadingSpaces(s)..];
    t[..|t| - TrailingSpaces(t)]
  }

  /** What `Strip` removes is white space at the two ends, nothing else. */
  lemma StripRemovesOnlyEnds(s: string)
    ensures IsStripOf(Strip(s), s)
  {
    var i := LeadingSpaces(s);
    var t := s[i..];
    var n := TrailingSpaces(t);
    assert Strip(s) == s[i..i + |t| - n];
    assert s[i + |t| - n..] == t[|t| - n..];
  }

  /** A piece of `s` holds only characters of `s`. */
  lemma StripKeepsCharacters(s: string, c: char)
    requires c in Strip(s)
    ensures c in s
  {
    var i := LeadingSpaces(s);
    var t := s[i..];
    var k :| 0 <= k < |Strip(s)| && Strip(s)[k] == c;
    assert s[i + k] == c;
  }

  /** Stripping twice is stripping once. */
  lemma StripIdempotent(s: string)
    ensures Strip(Strip(s)) == Strip(s)
  {
    var r := Strip(s);
    assert LeadingSpaces(r) == 0;
    assert TrailingSpaces(r) == 0;
  }

  /** Position of the first `c` in `s`, if any. */
  function IndexOf(s: string, c: char): (r: Option<nat>)
    ensures r.None? <==> c !in s
    ensures r.Some? ==> r.value < |s| && s[r.value] == c && c !in s[..r.value]
  {
    if s == [] then None
    else if s[0] == c then Some(0)
    else
      match IndexOf(s[1..], c)
      case None => None
      case Some(i) =>
        assert s[..i + 1] == [s[0]] + s[1..][..i];
        Some(i + 1)
  }

  /** Python's `s.split(c, 1)` on a string that contains `c`: the text before
      the first `c` and everything after it; `None` when `c` does not occur. */
  function SplitFirst(s: string, c: char): (r: Option<(string, string)>)
    ensures r.None? <==> c !in s
    ensures r.Some? ==> s == r.value.0 + [c] + r.value.1 && c !in r.value.0
  {
    match IndexOf(s, c)
    case None => None
    case Some(i) =>
      assert s == s[..i] + [c] + s[i + 1..];
      Some((s[..i], s[i + 1..]))
  }

  /** The split is at the FIRST occurrence: a key without `c` is recovered
      exactly, whatever the value after it contains. */
  lemma SplitFirstOfJoin(k: string, c: char, v: string)
    requires c !in k
    ensures SplitFirst(k + [c] + v, c) == Some((k, v))
  {
    var s := k + [c] + v;
    assert s[|k|] == c;
    var i := IndexOf(s, c).value;
    if i < |k| {
      assert false;
    } else if i > |k| {
      assert false;
    }
    assert s[..i] == k;
    assert s[i + 1..] == v;
  }

  /** Python's `s.split(c)`: the pieces between occurrences of `c`, always at
      least one (`"".split(",") == [""]`). */
  function Split(s: string, c: char): (parts: seq<string>)
    ensures |parts| >= 1
    ensures forall i :: 0 <= i < |parts| ==> c !in parts[i]
    decreases |s|
  {
    match SplitFirst(s, c)
    case None => [s]
    case Some((k, v)) => [k] + Split(v, c)
  }

  /** Python's `sep.join(parts)`: the parts in order, with `sep` between
      neighbours, so it starts with the first part and ends with the last. */
  function Join(parts: seq<string>, sep: string): (r: string)
    ensures parts != [] ==> |parts[0]| <= |r| && r[..|parts[0]|] == parts[0]
    ensures parts != [] ==> var last := parts[|parts| - 1]; |last| <= |r| && r[|r| - |last|..] == last
    ensures |parts| >= 2 ==> |parts[0]| + |sep| <= |r| && r[|parts[0]|..|parts[0]| + |sep|] == sep
  {
    if parts == [] then ""
    else if |parts| == 1 then parts[0]
    else parts[0] + sep + Join(parts[1..], sep)
  }

  /** Joining the pieces of a split with the same character gives the
      original string back. */
  lemma {:induction false} JoinSplit(s: string, c: char)
    ensures Join(Split(s, c), [c]) == s
    decreases |s|
  {
    match SplitFirst(s, c)
    case None =>
    case Some((k, v)) =>
      JoinSplit(v, c);
  }

  /** Splitting a join of pieces free of the separator gives the pieces back. */
  lemma {:induction false} SplitJoin(parts: seq<string>, c: char)
    requires parts != []
    requires forall i :: 0 <= i < |parts| ==> c !in parts[i]
    ensures Split(Join(parts, [c]), c) == parts
  {
    if |parts| == 1 {
      assert SplitFirst(parts[0], c).None?;
    } else {
      SplitFirstOfJoin(parts[0], c, Join(parts[1..], [c]));
      SplitJoin(parts[1..], c);
      assert parts == [parts[0]] + parts[1..];
    }
  }

  /** The first non-empty candidate, or "" when all are empty: the meaning of
      a Python chain `a or b or ''` over strings. */
  function FirstNonEmpty(cs: seq<string>): (r: string)
    ensures r == "" <==> forall i :: 0 <= i < |cs| ==> cs[i] == ""
    ensures r != "" ==> exists i :: 0 <= i < |cs| && r == cs[i] && forall j :: 0 <= j < i ==> cs[j] == ""
  {
    if cs == [] then ""
    else if cs[0] != "" then cs[0]
    else
      var r := FirstNonEmpty(cs[1..]);
      assert r != "" ==> exists i :: 0 <= i < |cs[1..]| && r == cs[1..][i] && forall j :: 0 <= j < i ==> cs[1..][j] == "";
      r
  }

  /** Python's `a or b` on two strings: `a` unless it is empty. */
  function OrElse(a: string, b: string): string {
    if a != "" then a else b
  }

  /** `a or b` picks the first non-empty of the two, or "". */
  lemma OrElseIsFirstNonEmpty(a: string, b: string)
    ensures OrElse(a, b) == FirstNonEmpty([a, b])
  {
    assert [a, b][1..] == [b];
    assert [b][1..] == [];
  }

  /** Python's `<` on strings: lexicographic by code point, a proper prefix
      coming first. */
  predicate LexLess(a: string, b: string) {
    if a == [] then b != []
    else if b == [] then false
    else if a[0] != b[0] then a[0] < b[0]
    else LexLess(a[1..], b[1..])
  }

  lemma {:induction false} LexLessIrreflexive(a: string)
    ensures !LexLess(a, a)
  {
    if a != [] {
      LexLessIrreflexive(a[1..]);
    }
  }

  lemma {:induction false} LexLessTransitive(a: string, b: string, c: string)
    requires LexLess(a, b) && LexLess(b, c)
    ensures LexLess(a, c)
  {
    if a != [] && b != [] && c != [] && a[0] == b[0] && b[0] == c[0] {
      LexLessTransitive(a[1..], b[1..], c[1..]);
    }
  }

  lemma {:induction false} LexLessTotal(a: string, b: string)
    ensures a == b || LexLess(a, b) || LexLess(b, a)
  {
    if a != [] && b != [] && a[0] == b[0] {
      LexLessTotal(a[1..], b[1..]);
      if a[1..] == b[1..] {
        assert a == [a[0]] + a[1..] && b == [b[0]] + b[1..];
      }
    }
  }
}

=== FILE: wrappers.dfy ===
/** Optional values and results with an error, as used by the report scripts'
    "missing key" and "could not parse" paths. */
module Wrappers {

  /** A value that may be absent, like a dictionary lookup that found nothing. */
  datatype Option<+T> = None | Some(value: T)

  /** A value or the error that stopped the computation. */
  datatype Result<+T, +E> = Ok(value: T) | Err(error: E)

  /** All the values, or the first error: what a loop that raises on the
      first bad item computes. */
  function CollectAll<T, E>(rs: seq<Result<T, E>>): (r: Result<seq<T>, E>)
    ensures r.Err? <==> exists i :: 0 <= i < |rs| && rs[i].Err?
    ensures r.Ok? ==> |r.value| == |rs| && forall i :: 0 <= i < |rs| ==> rs[i] == Ok(r.value[i])
  {
    if rs == [] then Ok([])
    else if rs[0].Err? then Err(rs[0].error)
    else
      match CollectAll(rs[1..])
      case Err(e) => Err(e)
      case Ok(vs) =>
        assert forall i :: 1 <= i < |rs| ==> rs[i] == rs[1..][i - 1];
        Ok([rs[0].value] + vs)
  }

  /** The error reported is the first one. */
  lemma {:induction false} CollectAllReportsFirstError<T, E>(rs: seq<Result<T, E>>)
    requires CollectAll(rs).Err?
    ensures exists i :: 0 <= i < |rs| && rs[i] == Err(CollectAll(rs).error) && forall j :: 0 <= j < i ==> rs[j].Ok?
  {
    if rs[0].Ok? {
      var tail := rs[1..];
      CollectAllReportsFirstError(tail);
      var i :| 0 <= i < |tail| && tail[i] == Err(CollectAll(tail).error) && forall j :: 0 <= j < i ==> tail[j].Ok?;
      assert rs[i + 1] == tail[i];
      assert forall j :: 1 <= j < i + 1 ==> rs[j] == tail[j - 1];
    }
  }
}
